=== FILE: README.md ===
# Wins feed — a Dafny model

This project models the core of a "wins" board. Members post screenshots of winning bets
with an amount and a comment, react to each other's posts with fires, and an admin removes
posts. The model covers three parts:

- **The wins endpoints** (`app/api/wins/route.ts`). GET lists the indexed records, newest first,
  together with the weekly statistics. POST validates a submission, normalises it and stores it,
  then appends its id to the index. PUT adds one fire. DELETE checks the admin secret, then removes
  the record's image, the record itself and its id in the index.
- **The image endpoints** (`app/api/upload/route.ts`). POST stores a base-64 payload under a fresh
  `img_` id. GET fetches it back.
- **The feed helpers of the client** (`app/WinsClient.tsx`). These are the avatar initials, the
  "how long ago" label, the channel and tier lookups, and the filter tabs. They also cover the
  local list updates after a fire or a delete, and the submit flow with its guard.

Each handler that writes is a pure function from the store and the request to the next store
and the response, wrapped in a `Step`. The read-only handlers, the two GETs, take the store and
the request and return only their response. The key-value backend is a `map<string, Entry>`. An entry holds
what the stored JSON decodes to: an id list, a record, or an image payload. The store uses three
key families: `wins:index`, `wins:{id}` and `wins-image:{imageId}`. The model keeps the fact that
the record key of the id `index` is the index key itself.

Values the handlers draw from outside are parameters:

- the clock (`now`, `elapsed`);
- the generated ids (`id`, `suffix`);
- the backend's answers to writes (`stored`, `recordStored`, `indexStored`);
- the configured admin secret;
- `parseFloat(x) || 0`, written as `amount: string -> real`.

A JavaScript `undefined`, `null` or `""` that the source tests as falsy is the empty string in
the model.

Modules:

| module | file | contents |
|---|---|---|
| `Results` | results.dfy | `Option`, `Result`, the HTTP statuses |
| `Clock` | clock.dfy | the millisecond units of minutes, hours, days and weeks |
| `Seqs` | seqs.dfy | `Keep` (`Array.prototype.filter`), subsequences, `Without` |
| `Records` | records.dfy | the `Win` record, amount normalisation, `value \|\| fallback` |
| `Store` | store.dfy | keys, entries, reading the index and records, the layout invariant `Valid` |
| `Upload` | upload.dfy | the image endpoints |
| `Recency` | recency.dfy | the newest-first sort and its stability |
| `Stats` | stats.dfy | the weekly statistics of GET |
| `Wins` | wins.dfy | the four wins handlers |
| `Races` | races.dfy | interleavings of two requests |
| `Scenarios` | scenarios.dfy | properties across several requests |
| `Initials` | initials.dfy | `getInitials` |
| `RelativeTime` | relative.dfy | `formatRelative` |
| `Feed` | feed.dfy | channels, tiers, filters, client list updates, submission |

## Model

| member | source | states |
|---|---|---|
| Seqs.Keep | app/WinsClient.tsx:219-228 | filtering never lengthens a list |
| Seqs.KeepMembers | app/WinsClient.tsx:219-228 | an element survives a filter exactly when it is in the list and passes the test |
| Seqs.KeepCounts | app/WinsClient.tsx:219-228 | a filter keeps every occurrence of a passing element and none of a failing one |
| Seqs.KeepIsSubseq | app/WinsClient.tsx:219-228 | the survivors of a filter keep their original relative order |
| Seqs.KeepAll | app/WinsClient.tsx:219 | a filter that every element passes returns the list unchanged |
| Seqs.KeepConcat | app/api/wins/route.ts:49 | filtering a concatenation is concatenating the filtered parts |
| Seqs.Without | app/api/wins/route.ts:139 | removing an id from the index drops every copy of it, keeps every other id with its multiplicity, and keeps their order |
| Seqs.WithoutIdempotent | app/api/wins/route.ts:139 | removing the same id twice is the same as removing it once |
| Records.NormaliseAmount | app/api/wins/route.ts:91 | the stored amount holds only digits and points; it keeps all of the input's digits and points, in order, and drops every other character |
| Records.NormaliseIdempotent | app/api/wins/route.ts:91 | normalising an amount a second time changes nothing |
| Records.NormaliseFixedPoint | app/api/wins/route.ts:91 | normalisation leaves an amount unchanged exactly when it is already digits and points |
| Store.KeyFamilies | app/api/wins/route.ts:37-42 | record keys and image keys never meet; a record key is the index key exactly for the id `index` |
| Store.KeysInjective | app/api/wins/route.ts:100 | distinct ids give distinct record keys and distinct image keys |
| Store.ValidReads | app/api/wins/route.ts:37-46 | in a well-formed store the index can be read, and a loaded record carries the id it was loaded by |
| Upload.UploadImage | app/api/upload/route.ts:27-56 | an empty payload is refused with 400 and nothing is stored; a refused write answers 500; otherwise the answer is an `img_` id and the payload is stored under its image key; no other key changes |
| Upload.FetchImage | app/api/upload/route.ts:59-76 | a missing id answers 400; an absent or empty payload answers 404; otherwise the answer is the payload stored under the image key |
| Upload.FetchWithoutIdReadsNothing | app/api/upload/route.ts:60-63 | a request without an id gets 400 whatever the store holds |
| Upload.UploadFetchRoundTrip | app/api/upload/route.ts:37-51 | fetching the id an upload returned gives back the uploaded payload |
| Upload.UploadPreservesValid | app/api/upload/route.ts:40 | an upload keeps the store well-formed |
| Recency.Insert | app/api/wins/route.ts:49 | inserting into a newest-first list keeps it newest first and adds exactly the new record |
| Recency.SortByRecency | app/api/wins/route.ts:48-49 | the sorted list is newest first and is a permutation of the loaded records |
| Recency.SortKeepsMembers | app/api/wins/route.ts:48-49 | sorting neither adds nor loses a record |
| Recency.AtTimeMembers | app/api/wins/route.ts:49 | the records at a given time are the list's records with that timestamp |
| Recency.AtTimeConcat | app/api/wins/route.ts:49 | selecting one timestamp distributes over concatenation |
| Recency.AtTimeOlder | app/api/wins/route.ts:49 | a list whose records are all older than a time has none at that time |
| Recency.InsertAtTime | app/api/wins/route.ts:49 | inserting a record appends it after the records with its own timestamp and changes no other timestamp |
| Recency.SortIsStable | app/api/wins/route.ts:49 | sorting keeps records with equal timestamps in index order, as the stable `Array.prototype.sort` does |
| Recency.FirstIsNewest | app/api/wins/route.ts:49 | the head of a newest-first list is at least as new as every record in it |
| Recency.StableOrderUnique | app/api/wins/route.ts:49 | two newest-first lists that agree on the order of every timestamp's records are equal |
| Recency.SortIsTheStableOrder | app/api/wins/route.ts:49 | any stable newest-first ordering of the records is exactly the model's sort, so the model agrees with the engine's sort |
| Stats.ThisWeekCount | app/api/wins/route.ts:54-65 | the week's record count equals the reference count of records no older than seven days |
| Stats.TotalIsWeekSum | app/api/wins/route.ts:55 | the week total folds exactly the reference sum of the week's amounts |
| Stats.BiggestFromSpec | app/api/wins/route.ts:57 | the reduce returns an element of the list whose amount no element beats, and which is the earliest with that amount |
| Stats.ComputeStats | app/api/wins/route.ts:51-67 | posted counts every record; the week count and week total match the reference definitions; there is no biggest win exactly when no record is in the week; otherwise the biggest win is in the week and no record there has a larger amount |
| Stats.BiggestIsEarliestMaximum | app/api/wins/route.ts:56-58 | among records with equal largest amounts, the biggest win is the first in the listing |
| Wins.LoadWins | app/api/wins/route.ts:40-46 | a record is loaded exactly when the index lists its id and its key holds it; never more records than ids |
| Wins.LoadWinsConcat | app/api/wins/route.ts:41-46 | loading the ids in two parts gives the two loaded lists concatenated |
| Wins.LoadWinsAgree | app/api/wins/route.ts:41-46 | stores that agree on the records of the listed ids load the same list |
| Wins.List | app/api/wins/route.ts:35-73 | an unreadable index gives an empty listing with empty statistics; otherwise the listing is newest first, is a permutation of the records the index names, keeps records with equal timestamps in index order, and reports each of them once as posted; its statistics are those of the sorted listing at the request time |
| Wins.Post | app/api/wins/route.ts:76-113 | 400 exactly when an image id, a channel or an amount is missing, and nothing is stored; otherwise the record has the generated id, the normalised amount, the defaults "", "Anonymous", "" and "free", no fires and the server time; when the writes succeed the record is stored and the index gains exactly the new id at its end; a refused record write leaves the record key as it was, and a refused index write leaves the index as it was; no other key changes |
| Wins.Fire | app/api/wins/route.ts:150-167 | 400 without an id and 404 without a record; otherwise the answer is the stored count plus one, and the stored record differs only in that count; an error changes nothing; a PUT of the id `index` answers 1 and writes the id list back unchanged; no other key changes |
| Wins.Delete | app/api/wins/route.ts:116-147 | a wrong or missing secret answers 401 and a missing id 400, with nothing changed; a success leaves no record for the id and no copy of it in the index, removes only that id from the index, deletes the image the record named, and touches no other key |
| Wins.DeleteIdempotent | app/api/wins/route.ts:116-147 | repeating a delete gives the same answer and changes nothing more |
| Wins.DeleteOfIndexIdEmptiesIndex | app/api/wins/route.ts:134-139 | deleting the id `index` deletes the index key, leaving an empty id list |
| Wins.PostFailsOnlyOnMissingFields | app/api/wins/route.ts:81-83 | in a well-formed store a POST succeeds exactly when the three required fields are present |
| Wins.PostPreservesValid | app/api/wins/route.ts:100-106 | a POST keeps the store well-formed |
| Wins.FirePreservesValid | app/api/wins/route.ts:160-161 | a PUT keeps the store well-formed |
| Wins.DeletePreservesValid | app/api/wins/route.ts:127-139 | a DELETE keeps the store well-formed |
| Races.PostIsItsSteps | app/api/wins/route.ts:100-106 | a POST running alone is its record write, an index read and an index write of that snapshot plus its id |
| Races.InterleavedPostsLoseAnId | app/api/wins/route.ts:100-106 | two POSTs that both read the index before either writes it back store both records, but the index keeps only the second id, so the first record is never listed |
| Races.InterleavedFiresLoseOne | app/api/wins/route.ts:155-161 | two PUTs that both read a record before either writes it back both answer the same count, and the record gains one fire, not two |
| Scenarios.PostLoadsAppended | app/api/wins/route.ts:37-106 | after a successful POST with a fresh id, the index loads the earlier records followed by the new one, and no earlier record has its id |
| Scenarios.PostThenListShowsOnce | app/api/wins/route.ts:35-113 | a successful submission with a fresh id appears exactly once in the next listing, whatever the clock then says |
| Scenarios.DeleteThenReads | app/api/wins/route.ts:116-147 | after a delete no listed record has the deleted id |
| Scenarios.UploadThenPostKeepsImage | app/api/upload/route.ts:37-51 | an image uploaded and then named by a posted record can still be fetched |
| Scenarios.WeeklyStatsExample | app/api/wins/route.ts:51-67 | for wins of 100 and 250 posted now and 80 posted ten days ago: three posted, two this week, 350 won this week, and the 250 win is the biggest |
| Initials.SplitOnSpace | app/WinsClient.tsx:201 | splitting on spaces gives at least one piece, and no piece contains a space |
| Initials.SplitJoinRoundTrip | app/WinsClient.tsx:201 | joining the pieces with spaces gives back the original name |
| Initials.HeadsAreWordStarts | app/WinsClient.tsx:201 | the first characters of the pieces are exactly the name's word-starting characters, in order |
| Initials.Upper | app/WinsClient.tsx:201 | upper-casing keeps the length, leaves no lower-case letter, turns each lower-case letter into its capital and leaves every other character as it is |
| Initials.UpperIdempotent | app/WinsClient.tsx:201 | upper-casing twice is the same as upper-casing once |
| Initials.GetInitials | app/WinsClient.tsx:199-202 | an empty name gives "?"; otherwise at most two characters, with no space, which are the upper-cased first word-starting characters |
| Initials.NoSpaceInWordStarts | app/WinsClient.tsx:201 | word-starting characters are never spaces, before or after upper-casing |
| RelativeTime.Decimal | app/WinsClient.tsx:208-213 | a count prints as at least one decimal digit, with no leading zero |
| RelativeTime.DecimalRoundTrip | app/WinsClient.tsx:208-213 | a printed count reads back as itself |
| RelativeTime.FormatRelative | app/WinsClient.tsx:204-214 | under a minute is "Just now"; then whole minutes, hours, days and weeks, each counted by its own unit threshold |
| Feed.FindChannel | app/WinsClient.tsx:216 | the search finds nothing exactly when no channel has the value; what it finds is a channel with that value |
| Feed.ChannelValuesDistinct | app/WinsClient.tsx:24-31 | no two channels share a value |
| Feed.GetChannel | app/WinsClient.tsx:216 | the result is always a channel; it carries the requested value exactly when some channel does; otherwise it is the first channel |
| Feed.GetTier | app/WinsClient.tsx:217 | a configured tier is returned as configured; any other value gives the "Member" tier |
| Feed.TierTabShowsItsTier | app/WinsClient.tsx:217-224 | every record a tier tab shows is displayed with that tab's tier badge |
| Feed.Filtered | app/WinsClient.tsx:219-228 | "all" and unknown tabs show the whole list; a tier tab shows exactly the records of that tier; "week" shows exactly the records younger than seven days; every tab keeps the list's order and the multiplicities |
| Feed.WeekBoundariesDiffer | app/WinsClient.tsx:225-227 | a record exactly seven days old counts in the server's week statistics but not in the client's "This Week" tab |
| Feed.ApplyFire | app/WinsClient.tsx:178-180 | the list keeps its length and order; records with another id are unchanged; records with the id differ only in their fire count, which becomes the returned one |
| Feed.ApplyDelete | app/WinsClient.tsx:193-195 | no shown record keeps the deleted id; every other record keeps its multiplicity and its order |
| Feed.ClientFire | app/WinsClient.tsx:171-183 | a failed PUT leaves the view as it was; a successful PUT shows the server's store and the old list with the returned count patched into every copy of the id, all their other fields kept; after a PUT on a stored record every shown copy has the stored count; other records are untouched |
| Feed.ClientDelete | app/WinsClient.tsx:185-197 | without an entered secret nothing happens; with a wrong one nothing changes; after a successful delete the shown list is the old one with the id dropped; after a failed one the shown list stays as it was |
| Feed.Submit | app/WinsClient.tsx:121-169 | without an image or an amount the form is refused with its message and nothing is sent; a refused upload ends in "Failed to post win" with nothing stored; a missing channel ends in the server's 400 message after "Error: "; a success names the image the upload stored, which can be fetched, and the posted record carries the form's channel, comment and normalised amount, the member's name, id and tier with the server's defaults, the generated id, the server time and no fires |
| Feed.GuardedSubmitSucceeds | app/WinsClient.tsx:121-169 | a form that passes the client's guard, with a channel chosen, passes the server's validation; if the backend accepts the writes, the record is stored and listed in the index |

## Left out

- I/O: the HTTP transport, JSON parsing, the backend's REST calls and React state are left out. A stored value is modelled by what it decodes to.
- The catch paths for network and parse failures are left out, apart from the index that does not decode as an id list. The handlers' 500 answers for thrown exceptions are modelled only where the store itself causes them.
- Wins.Post: the code ignores the results of both writes (lines 100 and 106) and answers success even when a write fails. The model follows the code: `recordStored` and `indexStored` decide only what reaches the store, never the answer.
- Wins.Fire and Wins.Delete: the backend's answers to their writes and deletes are ignored by the source too; the model treats those writes as always applied.
- Wins.List: the source pushes any truthy value found under a record key. The model loads only keys that hold a record and skips others, such as the id list under `wins:index` for the id `index`.
- Wins.List: timestamps are ISO strings in the source; the model compares milliseconds since the epoch directly.
- Upload.UploadImage: the 90-day expiry (7776000 seconds) set after the write is not modelled, so images never expire in the model.
- Upload.UploadImage and Wins.Post: the id generator (base-36 time plus random characters) is a parameter, so collisions of generated ids are assumed away where a lemma asks for a fresh id.
- Stats.ComputeStats: `parseFloat(x) \|\| 0` is the parameter `amount`, and the sum uses exact reals. Floating-point rounding of the running total is not modelled.
- RelativeTime.FormatRelative: `elapsed` is the integer difference of two millisecond counts, as in the source. A negative elapsed time from clock skew floors to a negative minute count and reads "Just now", in the model as in the source.
- Initials.Upper: upper-casing is modelled for ASCII letters only. Other characters, including ones `toUpperCase` widens such as `ß`, are left unchanged.
- Initials.GetInitials: strings are sequences of characters, not of UTF-16 code units. A name starting with an astral character therefore gives a whole character where the source gives half a surrogate pair.
- Feed.GetTier: a value naming a property every object inherits, such as `constructor`, returns that property in the source. The model gives such values the "Member" tier.
- Feed.Submit: the image compression in the browser (canvas resize to 800 pixels, JPEG at 0.75) is left out; the payload is the form's string. The reload of the feed after a success, and the modal and status state, are left out.
- Concurrency: requests are atomic in the model. Interleavings are shown only by the lemmas in `Races`.
- The rest of the client (image cache, layout, admin panel toggles) and the page and layout files are not part of this model.

=== FILE: clock.dfy ===
/** The millisecond units the server and the client both count time in. */
module Clock {
  const MinuteMs: int := 60 * 1000
  const HourMs: int := 60 * MinuteMs
  const DayMs: int := 24 * HourMs
  /** Seven days in milliseconds: `7 * 24 * 60 * 60 * 1000`. */
  const WeekMs: int := 7 * DayMs
}

=== FILE: feed.dfy ===
/**
 * The feed logic of the client: channel and tier lookups, the filter tabs, the local list
 * updates after a fire or a delete, and the submit flow with its guard.
 */
module Feed {
  import opened Results
  import opened Seqs
  import opened Records
  import opened Store
  import Stats
  import opened Clock
  import opened Upload
  import opened Wins

  datatype Channel = Channel(value: string, title: string, icon: string, cls: string)

  /** `CHANNELS`, in display order; the first entry is the fallback. */
  const Channels: seq<Channel> := [
    Channel("maxbet", "Max Bet POTD", "\U{1F525}", "ch-maxbet"),
    Channel("straight", "Straight Bets", "\U{1F3AF}", "ch-straight"),
    Channel("parlays", "Parlays", "\U{1F3AF}", "ch-parlays"),
    Channel("dotd", "Dog of the Day", "\U{1F415}", "ch-dotd"),
    Channel("plusmoney", "Plus Money", "\U{1F4B0}", "ch-plus"),
    Channel("lottos", "Lottos", "\U{1F3B0}", "ch-lottos")
  ]

  /** `cs.find(c => c.value === v)`: the first channel with that value. */
  function FindChannel(cs: seq<Channel>, v: string): (r: Option<Channel>)
    ensures r.None? <==> forall i :: 0 <= i < |cs| ==> cs[i].value != v
    ensures r.Some? ==> r.value in cs && r.value.value == v
    decreases |cs|
  {
    if |cs| == 0 then None
    else if cs[0].value == v then Some(cs[0])
    else FindChannel(cs[1..], v)
  }

  /** The channel values are distinct, so the first match is the only one. */
  lemma ChannelValuesDistinct()
    ensures forall i, j :: 0 <= i < j < |Channels| ==> Channels[i].value != Channels[j].value
  {
  }

  /** `getChannel(v)`: the channel with value `v`, or the first channel for an unknown value. */
  function GetChannel(v: string): (c: Channel)
    ensures c in Channels
    ensures c.value == v <==> exists i :: 0 <= i < |Channels| && Channels[i].value == v
    ensures c.value != v ==> c == Channels[0]
  {
    match FindChannel(Channels, v)
    case Some(c) => c
    case None => Channels[0]
  }

  datatype Tier = Tier(title: string, icon: string, cls: string, avatarCls: string)

  /** `TIER_CONFIG`. */
  const Tiers: map<string, Tier> := map[
    "highrollers" := Tier("High Rollers", "\U{1F451}", "tier-hr", "av-hr"),
    "premium" := Tier("Premium", "\U{1F48E}", "tier-prem", "av-prem"),
    "playerprops" := Tier("Player Props", "\U{1F3AF}", "tier-props", "av-props"),
    "free" := Tier("Member", "", "tier-free", "av-free")
  ]

  /** `getTier(v)`: the configured tier, or the free tier for an unknown value. */
  function GetTier(v: string): (t: Tier)
    ensures t in Tiers.Values
    ensures v in Tiers ==> t == Tiers[v]
    ensures v !in Tiers ==> t == Tiers["free"] && t.title == "Member"
  {
    if v in Tiers then Tiers[v] else Tiers["free"]
  }

  /** The tier filter tabs; each keeps the wins of exactly that `userTier`. */
  const TierFilters: set<string> := {"highrollers", "playerprops", "premium", "free"}

  /** The test one filter tab applies to a win, `now` being `Date.now()`. */
  predicate Shown(w: Win, filter: string, now: int)
  {
    if filter in TierFilters then w.userTier == filter
    else if filter == "week" then now - w.createdAt < WeekMs
    else true
  }

  function ShownBy(filter: string, now: int): Win -> bool
  {
    (w: Win) => Shown(w, filter, now)
  }

  /** The `filtered` list of the feed for the selected tab. */
  function Filtered(wins: seq<Win>, filter: string, now: int): (r: seq<Win>)
    ensures filter == "all" || (filter !in TierFilters && filter != "week") ==> r == wins
    ensures IsSubseq(r, wins)
    ensures filter in TierFilters ==> forall w :: w in r <==> w in wins && w.userTier == filter
    ensures filter == "week" ==> forall w :: w in r <==> w in wins && now - w.createdAt < WeekMs
    ensures filter != "all" ==> forall w :: multiset(r)[w] == if Shown(w, filter, now) then multiset(wins)[w] else 0
  {
    if filter == "all" then
      KeepAll(wins, ShownBy(filter, now));
      KeepIsSubseq(wins, ShownBy(filter, now));
      wins
    else
      KeepIsSubseq(wins, ShownBy(filter, now));
      KeepMembers(wins, ShownBy(filter, now));
      KeepCounts(wins, ShownBy(filter, now));
      if filter !in TierFilters && filter != "week" then
        KeepAll(wins, ShownBy(filter, now));
        Keep(wins, ShownBy(filter, now))
      else
        Keep(wins, ShownBy(filter, now))
  }

  /** Every record a tier tab shows wears that tier's badge. */
  lemma TierTabShowsItsTier(wins: seq<Win>, filter: string, now: int)
    requires filter in TierFilters
    ensures filter in Tiers
    ensures forall w :: w in Filtered(wins, filter, now) ==> GetTier(w.userTier) == Tiers[filter]
  {
  }

  /**
   * The server counts a win into "this week" up to and including exactly seven days of age;
   * the client's "This Week" tab keeps it only below seven days.
   */
  lemma WeekBoundariesDiffer(wins: seq<Win>, w: Win, now: int)
    requires w in wins && w.createdAt == now - WeekMs
    ensures Stats.InWeek(w, now)
    ensures w !in Filtered(wins, "week", now)
  {
  }

  /** `prev.map(w => w.id === id ? { ...w, fires } : w)` after a fire reaction succeeded. */
  function ApplyFire(wins: seq<Win>, id: string, fires: nat): (r: seq<Win>)
    ensures |r| == |wins|
    ensures forall i :: 0 <= i < |wins| && wins[i].id != id ==> r[i] == wins[i]
    ensures forall i :: 0 <= i < |wins| && wins[i].id == id ==>
      r[i].fires == fires && r[i].(fires := wins[i].fires) == wins[i]
    decreases |wins|
  {
    if |wins| == 0 then []
    else [if wins[0].id == id then wins[0].(fires := fires) else wins[0]] + ApplyFire(wins[1..], id, fires)
  }

  /** `prev.filter(w => w.id !== id)` after a delete succeeded. */
  function ApplyDelete(wins: seq<Win>, id: string): (r: seq<Win>)
    ensures forall w :: w in r ==> w.id != id
    ensures forall w: Win :: w.id != id ==> multiset(r)[w] == multiset(wins)[w]
    ensures IsSubseq(r, wins)
  {
    var p := (w: Win) => w.id != id;
    KeepMembers(wins, p);
    KeepCounts(wins, p);
    KeepIsSubseq(wins, p);
    Keep(wins, p)
  }

  /** The client's state around one fire: the store, and the list it shows. */
  datatype View = View(store: Store, wins: seq<Win>)

  /** `handleFire`: PUT the reaction, and on success patch the shown list with the returned count. */
  function ClientFire(v: View, id: string): (out: View)
    ensures |out.wins| == |v.wins|
    ensures Fire(v.store, id).response.Err? ==> out == v
    ensures Fire(v.store, id).response.Ok? ==>
      out == View(Fire(v.store, id).store, ApplyFire(v.wins, id, Fire(v.store, id).response.value))
    ensures forall i :: 0 <= i < |v.wins| && v.wins[i].id != id ==> out.wins[i] == v.wins[i]
    ensures id != "" && LoadRecord(v.store, id).Some? ==>
      && LoadRecord(out.store, id).Some?
      && forall i :: 0 <= i < |v.wins| && v.wins[i].id == id ==>
           out.wins[i].fires == LoadRecord(out.store, id).value.fires
  {
    var step := Fire(v.store, id);
    match step.response
    case Ok(n) => View(step.store, ApplyFire(v.wins, id, n))
    case Err(_) => View(step.store, v.wins)
  }

  /**
   * `handleDelete`: nothing happens without an entered secret; otherwise DELETE, and on
   * success drop the id from the shown list. `secret` is the server's configured secret.
   */
  function ClientDelete(v: View, adminSecret: string, secret: Option<string>, id: string): (out: View)
    ensures adminSecret == "" ==> out == v
    ensures out.wins == v.wins || (Authorized(Some(adminSecret), secret) && out.wins == ApplyDelete(v.wins, id))
    ensures !Authorized(Some(adminSecret), secret) ==> out == v
    ensures adminSecret != "" && Delete(v.store, Some(adminSecret), secret, id).response.Ok? ==>
      out == View(Delete(v.store, Some(adminSecret), secret, id).store, ApplyDelete(v.wins, id))
    ensures adminSecret != "" && Delete(v.store, Some(adminSecret), secret, id).response.Err? ==>
      out == View(Delete(v.store, Some(adminSecret), secret, id).store, v.wins)
  {
    if adminSecret == "" then v
    else
      var step := Delete(v.store, Some(adminSecret), secret, id);
      match step.response
      case Ok(_) => View(step.store, ApplyDelete(v.wins, id))
      case Err(_) => View(step.store, v.wins)
  }

  /** The message shown when the form lacks an image or an amount. */
  const MissingInputMessage: string := "Upload a bet slip and enter the amount won"

  /** The submission form; an empty `image` stands for no selected image. */
  datatype Form = Form(image: string, channel: string, amount: string, comment: string)

  /** The signed-in member the page passes to the client. */
  datatype Member = Member(userName: string, userId: string, userTier: string)

  datatype SubmitOutcome = Refused(message: string) | Failed(message: string) | Submitted(win: Win)

  /** The `error` text of the wins POST for each failure it answers with. */
  function PostErrorText(st: Status): string
  {
    if st == BadRequest then "imageId, channel, and amountWon are required" else "Failed to post win"
  }

  /**
   * `handleSubmit`: refuse without an image or amount; otherwise upload the image, then post
   * the win naming it. The generated ids, the clock and the backend's write answers are
   * parameters, as in the handlers.
   */
  function Submit(s: Store, form: Form, member: Member, suffix: string, id: string, now: int,
                  imageStored: bool, recordStored: bool, indexStored: bool): (out: (Store, SubmitOutcome))
    ensures form.image == "" || form.amount == "" ==> out == (s, Refused(MissingInputMessage))
    ensures form.image != "" && form.amount != "" && !imageStored ==> out == (s, Failed("Failed to post win"))
    ensures form.image != "" && form.amount != "" && imageStored && form.channel == "" ==>
      out.1 == Failed("Error: " + PostErrorText(BadRequest))
    ensures out.1.Submitted? ==>
      && out.1.win.id == id && out.1.win.createdAt == now && out.1.win.fires == 0
      && out.1.win.channel == form.channel && out.1.win.comment == form.comment
      && out.1.win.userName == OrDefault(member.userName, "Anonymous")
      && out.1.win.userId == member.userId
      && out.1.win.userTier == OrDefault(member.userTier, "free")
      && out.1.win.imageId == ImageIdPrefix + suffix
      && FetchImage(out.0, out.1.win.imageId) == Ok(form.image)
      && out.1.win.amountWon == NormaliseAmount(form.amount)
  {
    if form.image == "" || form.amount == "" then (s, Refused(MissingInputMessage))
    else
      var uploaded := UploadImage(s, form.image, suffix, imageStored);
      match uploaded.response
      case Err(_) => (uploaded.store, Failed("Failed to post win"))
      case Ok(imageId) =>
        var req := PostRequest(imageId, form.channel, form.amount, form.comment,
                               member.userName, member.userId, member.userTier);
        var posted := Post(uploaded.store, req, id, now, recordStored, indexStored);
        KeyFamilies(id, imageId);
        KeyFamilies("", imageId);
        match posted.response
        case Ok(w) => (posted.store, Submitted(w))
        case Err(st) =>
          assert MissingRequired(req) ==> st == BadRequest;
          (posted.store, Failed("Error: " + PostErrorText(st)))
  }

  /**
   * A form that passes the client's guard also passes the server's validation: with a
   * channel chosen and the backend accepting the writes, the submission is stored and listed.
   */
  lemma GuardedSubmitSucceeds(s: Store, form: Form, member: Member, suffix: string, id: string, now: int)
    requires Valid(s) && id != "index"
    requires form.image != "" && form.amount != "" && form.channel != ""
    ensures
      var out := Submit(s, form, member, suffix, id, now, true, true, true);
      && out.1.Submitted?
      && LoadRecord(out.0, id) == Some(out.1.win)
      && ReadIndex(out.0).Some? && id in ReadIndex(out.0).value
  {
    var uploaded := UploadImage(s, form.image, suffix, true);
    UploadPreservesValid(s, form.image, suffix, true);
    var req := PostRequest(ImageIdPrefix + suffix, form.channel, form.amount, form.comment,
                           member.userName, member.userId, member.userTier);
    PostFailsOnlyOnMissingFields(uploaded.store, req, id, now, true, true);
    var posted := Post(uploaded.store, req, id, now, true, true);
    assert ReadIndex(posted.store).value[|ReadIndex(posted.store).value| - 1] == id;
  }
}

=== FILE: initials.dfy ===
/**
 * The avatar initials of the feed: `name.split(" ").map(n => n[0]).join("").toUpperCase().slice(0, 2)`,
 * or "?" for an empty name.
 */
module Initials {

  /** `s.split(" ")`: the pieces between single spaces, empty pieces included; never empty. */
  function SplitOnSpace(s: string): (words: seq<string>)
    ensures |words| >= 1
    ensures forall i :: 0 <= i < |words| ==> ' ' !in words[i]
    decreases |s|
  {
    if |s| == 0 then [""]
    else
      var rest := SplitOnSpace(s[1..]);
      if s[0] == ' ' then [""] + rest
      else [[s[0]] + rest[0]] + rest[1..]
  }

  /** `words.join(" ")`. */
  function JoinWithSpace(words: seq<string>): string
    requires |words| >= 1
    decreases |words|
  {
    if |words| == 1 then words[0] else words[0] + " " + JoinWithSpace(words[1..])
  }

  /** Splitting on spaces and joining with spaces gives the original name back. */
  lemma {:induction false} SplitJoinRoundTrip(s: string)
    ensures JoinWithSpace(SplitOnSpace(s)) == s
    decreases |s|
  {
    if |s| > 0 {
      var rest := SplitOnSpace(s[1..]);
      SplitJoinRoundTrip(s[1..]);
      if s[0] == ' ' {
        assert ([""] + rest)[1..] == rest;
        assert s == " " + s[1..];
      } else if |rest| == 1 {
        assert s == [s[0]] + s[1..];
      } else {
        var words := [[s[0]] + rest[0]] + rest[1..];
        assert words[1..] == rest[1..];
        assert JoinWithSpace(rest) == rest[0] + " " + JoinWithSpace(rest[1..]);
        assert s == [s[0]] + s[1..];
      }
    }
  }

  /**
   * `words.map(n => n[0]).join("")`: the first character of every word. An empty word's
   * `n[0]` is `undefined`, which `join` writes as nothing.
   */
  function Heads(words: seq<string>): string
    decreases |words|
  {
    if |words| == 0 then ""
    else (if |words[0]| > 0 then [words[0][0]] else "") + Heads(words[1..])
  }

  /**
   * Reference definition: the characters of `s` that begin a word, i.e. are not a space and
   * come first (when `atStart`) or right after a space.
   */
  function WordStarts(s: string, atStart: bool): string
    decreases |s|
  {
    if |s| == 0 then ""
    else (if s[0] != ' ' && atStart then [s[0]] else "") + WordStarts(s[1..], s[0] == ' ')
  }

  /** The heads of the split pieces are exactly the word-starting characters, in order. */
  lemma {:induction false} HeadsAreWordStarts(s: string)
    ensures Heads(SplitOnSpace(s)) == WordStarts(s, true)
    ensures Heads(SplitOnSpace(s)[1..]) == WordStarts(s, false)
    decreases |s|
  {
    if |s| > 0 {
      var rest := SplitOnSpace(s[1..]);
      HeadsAreWordStarts(s[1..]);
      if s[0] == ' ' {
        assert SplitOnSpace(s)[1..] == rest;
      } else {
        var words := [[s[0]] + rest[0]] + rest[1..];
        assert words[1..] == rest[1..];
        assert words[0][0] == s[0];
      }
    }
  }

  /** Upper-casing of one character, for the ASCII letters. */
  function UpperChar(c: char): char
  {
    if 'a' <= c <= 'z' then (c as int - 32) as char else c
  }

  /**
   * `s.toUpperCase()`, character by character: no lower-case letter survives, each one
   * becomes its capital, and every other character is left as it is.
   */
  function Upper(s: string): (r: string)
    ensures |r| == |s|
    ensures forall i :: 0 <= i < |r| ==> !('a' <= r[i] <= 'z')
    ensures forall i :: 0 <= i < |s| && 'a' <= s[i] <= 'z' ==> 'A' <= r[i] <= 'Z' && r[i] as int - 'A' as int == s[i] as int - 'a' as int
    ensures forall i :: 0 <= i < |s| && !('a' <= s[i] <= 'z') ==> r[i] == s[i]
  {
    seq(|s|, i requires 0 <= i < |s| => UpperChar(s[i]))
  }

  /** Upper-casing an upper-cased string changes nothing. */
  lemma UpperIdempotent(s: string)
    ensures Upper(Upper(s)) == Upper(s)
  {
  }

  /** `s.slice(0, 2)`. */
  function FirstTwo(s: string): string
  {
    if |s| <= 2 then s else s[..2]
  }

  /** `getInitials(name)`. */
  function GetInitials(name: string): (r: string)
    ensures name == "" ==> r == "?"
    ensures name != "" ==> |r| <= 2 && ' ' !in r
    ensures name != "" ==> r == FirstTwo(Upper(WordStarts(name, true)))
  {
    if name == "" then "?"
    else
      HeadsAreWordStarts(name);
      NoSpaceInWordStarts(name, true);
      FirstTwo(Upper(Heads(SplitOnSpace(name))))
  }

  /** Word starts are never spaces, and upper-casing keeps them so. */
  lemma {:induction false} NoSpaceInWordStarts(s: string, atStart: bool)
    ensures ' ' !in WordStarts(s, atStart)
    ensures ' ' !in Upper(WordStarts(s, atStart))
    decreases |s|
  {
    if |s| > 0 {
      NoSpaceInWordStarts(s[1..], s[0] == ' ');
    }
    var u := Upper(WordStarts(s, atStart));
    forall i | 0 <= i < |u|
      ensures u[i] != ' '
    {
      assert WordStarts(s, atStart)[i] in WordStarts(s, atStart);
    }
  }
}

=== FILE: races.dfy ===
/**
 * The read-modify-write steps of POST and PUT taken apart, to show what two requests that
 * interleave on the same key can do: the backend offers no transaction, so the last writer's
 * snapshot wins.
 */
module Races {
  import opened Results
  import opened Records
  import opened Store
  import opened Wins

  /** POST's first write: the record under its key. */
  function WriteRecord(s: Store, w: Win): Store
  {
    s[RecordKey(w.id) := RecordEntry(w)]
  }

  /** POST's last write: the index snapshot the request read, plus its own id. */
  function WriteIndex(s: Store, snapshot: seq<string>, id: string): Store
  {
    s[IndexKey := IndexEntry(snapshot + [id])]
  }

  /** A POST that runs alone is its record write, an index read, and the index write. */
  lemma PostIsItsSteps(s: Store, req: PostRequest, id: string, now: int)
    requires Valid(s) && id != "index" && !MissingRequired(req)
    ensures
      var w := NewWin(req, id, now);
      var s1 := WriteRecord(s, w);
      && ReadIndex(s1).Some?
      && Post(s, req, id, now, true, true) == Step(WriteIndex(s1, ReadIndex(s1).value, id), Ok(w))
  {
    KeyFamilies(id, "");
  }

  /**
   * Two POSTs that both read the index before either writes it back: the first writer's id is
   * lost from the index although its record is stored, so the listing never shows it.
   */
  lemma InterleavedPostsLoseAnId(s: Store, a: Win, b: Win, now: int, amount: string -> real)
    requires Valid(s)
    requires a.id != b.id && a.id != "index" && b.id != "index"
    requires a.id !in ReadIndex(s).value
    ensures
      var s1 := WriteRecord(WriteRecord(s, a), b);
      ReadIndex(s1).Some? &&
      var snapshot := ReadIndex(s1).value;
      var s2 := WriteIndex(WriteIndex(s1, snapshot, a.id), snapshot, b.id);
      && LoadRecord(s2, a.id) == Some(a)
      && LoadRecord(s2, b.id) == Some(b)
      && ReadIndex(s2) == Some(ReadIndex(s).value + [b.id])
      && a.id !in ReadIndex(s2).value
      && a !in List(s2, now, amount).wins
  {
    ValidReads(s, a.id);
    KeyFamilies(a.id, "");
    KeyFamilies(b.id, "");
    KeysInjective();
    var s1 := WriteRecord(WriteRecord(s, a), b);
    var s2 := WriteIndex(WriteIndex(s1, ReadIndex(s1).value, a.id), ReadIndex(s1).value, b.id);
    var ids := ReadIndex(s2).value;
    assert ids == ReadIndex(s).value + [b.id];
    forall id | id in ids
      ensures LoadRecord(s2, id) != Some(a)
    {
      if id != b.id {
        assert LoadRecord(s2, id) == LoadRecord(s, id);
        ValidReads(s, id);
      }
    }
  }

  /** Two PUTs on one record that both read it before either writes it back add one fire, not two. */
  lemma InterleavedFiresLoseOne(s: Store, id: string, w: Win)
    requires id != "" && LoadRecord(s, id) == Some(w)
    ensures
      var first, second := Fire(s, id), Fire(s, id);
      var s2 := first.store[RecordKey(id) := second.store[RecordKey(id)]];
      && first.response == second.response == Ok(w.fires + 1)
      && LoadRecord(s2, id) == Some(w.(fires := w.fires + 1))
  {
  }
}

=== FILE: recency.dfy ===
/**
 * `wins.sort((a, b) => b.createdAt - a.createdAt)`: newest first. `Array.prototype.sort` is
 * stable, so records with equal `createdAt` keep their index order; the model sorts by
 * insertion and proves that any stable newest-first order is this one.
 */
module Recency {
  import opened Seqs
  import opened Records

  /** `createdAt` never increases along `s`. */
  predicate NewestFirst(s: seq<Win>)
  {
    forall i, j :: 0 <= i < j < |s| ==> s[i].createdAt >= s[j].createdAt
  }

  /** The test "created at time `t`". */
  function CreatedAt(t: int): Win -> bool
  {
    (w: Win) => w.createdAt == t
  }

  /** The records of `s` created at time `t`, in their order in `s`. */
  function AtTime(s: seq<Win>, t: int): seq<Win>
  {
    Keep(s, CreatedAt(t))
  }

  /** Every element of a sequence with the same elements as `t` plus `x` is bounded like them. */
  lemma BoundedByMultiset(r: seq<Win>, t: seq<Win>, x: Win, bound: int)
    requires multiset(r) == multiset(t) + multiset{x}
    requires forall i :: 0 <= i < |t| ==> t[i].createdAt <= bound
    requires x.createdAt <= bound
    ensures forall j :: 0 <= j < |r| ==> r[j].createdAt <= bound
  {
    forall j | 0 <= j < |r|
      ensures r[j].createdAt <= bound
    {
      assert r[j] in multiset(r);
      if r[j] != x {
        assert r[j] in multiset(t);
        assert r[j] in t;
      }
    }
  }

  /** Places `x` after every record at least as new as it. */
  function Insert(t: seq<Win>, x: Win): (r: seq<Win>)
    requires NewestFirst(t)
    ensures NewestFirst(r)
    ensures multiset(r) == multiset(t) + multiset{x}
    decreases |t|
  {
    if |t| == 0 then [x]
    else if t[0].createdAt >= x.createdAt then
      var rest := Insert(t[1..], x);
      assert t == [t[0]] + t[1..];
      BoundedByMultiset(rest, t[1..], x, t[0].createdAt);
      [t[0]] + rest
    else
      [x] + t
  }

  /** The newest-first order of `s`: sorted, and a permutation of `s`. */
  function SortByRecency(s: seq<Win>): (r: seq<Win>)
    ensures NewestFirst(r)
    ensures multiset(r) == multiset(s)
    ensures |r| == |s|
    decreases |s|
  {
    if |s| == 0 then []
    else
      assert s == s[..|s| - 1] + [s[|s| - 1]];
      var r := Insert(SortByRecency(s[..|s| - 1]), s[|s| - 1]);
      assert |r| == |multiset(r)| == |multiset(s)| == |s|;
      r
  }

  /** Sorting neither adds nor loses a record. */
  lemma SortKeepsMembers(s: seq<Win>)
    ensures forall w :: w in SortByRecency(s) <==> w in s
  {
    var r := SortByRecency(s);
    forall w
      ensures w in r <==> w in s
    {
      assert w in r <==> w in multiset(r);
      assert w in s <==> w in multiset(s);
    }
  }

  /** One step of `Keep` on a non-empty sequence, for the time test. */
  lemma AtTimeCons(s: seq<Win>, t: int)
    requires |s| > 0
    ensures AtTime(s, t) == (if s[0].createdAt == t then [s[0]] else []) + AtTime(s[1..], t)
  {
  }

  lemma AtTimeMembers(s: seq<Win>, t: int)
    ensures forall w :: w in AtTime(s, t) <==> w in s && w.createdAt == t
  {
    KeepMembers(s, CreatedAt(t));
  }

  lemma AtTimeConcat(a: seq<Win>, b: seq<Win>, t: int)
    ensures AtTime(a + b, t) == AtTime(a, t) + AtTime(b, t)
  {
    KeepConcat(a, b, CreatedAt(t));
  }

  /** No record of `s` is at time `t` when all of them are older than `t`. */
  lemma {:induction false} AtTimeOlder(s: seq<Win>, t: int)
    requires forall i :: 0 <= i < |s| ==> s[i].createdAt < t
    ensures AtTime(s, t) == []
    decreases |s|
  {
    if |s| > 0 {
      AtTimeCons(s, t);
      AtTimeOlder(s[1..], t);
    }
  }

  /** Inserting `x` appends it to the records of its own time and leaves the other times alone. */
  lemma {:induction false} InsertAtTime(u: seq<Win>, x: Win, t: int)
    requires NewestFirst(u)
    ensures AtTime(Insert(u, x), t) == AtTime(u, t) + AtTime([x], t)
    decreases |u|
  {
    if |u| == 0 {
      assert Insert(u, x) == [x];
      assert u + [x] == [x];
      AtTimeConcat(u, [x], t);
    } else if u[0].createdAt >= x.createdAt {
      InsertAtTime(u[1..], x, t);
      assert Insert(u, x) == [u[0]] + Insert(u[1..], x);
      InsertAfterHead(u, Insert(u[1..], x), x, t);
    } else {
      InsertBeforeAll(u, x, t);
    }
  }

  /** The step of `InsertAtTime` where `x` goes after the head of `u`, into `rest`. */
  lemma InsertAfterHead(u: seq<Win>, rest: seq<Win>, x: Win, t: int)
    requires |u| > 0
    requires AtTime(rest, t) == AtTime(u[1..], t) + AtTime([x], t)
    ensures AtTime([u[0]] + rest, t) == AtTime(u, t) + AtTime([x], t)
  {
    var h, tail := AtTime([u[0]], t), AtTime([x], t);
    AtTimeConcat([u[0]], rest, t);
    AtTimeConcat([u[0]], u[1..], t);
    assert [u[0]] + u[1..] == u;
    assert h + (AtTime(u[1..], t) + tail) == (h + AtTime(u[1..], t)) + tail;
  }

  /** The step of `InsertAtTime` where `x` is newer than every record of `u`. */
  lemma InsertBeforeAll(u: seq<Win>, x: Win, t: int)
    requires NewestFirst(u) && |u| > 0 && u[0].createdAt < x.createdAt
    ensures AtTime(Insert(u, x), t) == AtTime(u, t) + AtTime([x], t)
  {
    assert Insert(u, x) == [x] + u;
    AtTimeConcat([x], u, t);
    if x.createdAt == t {
      AtTimeOlder(u, t);
    } else {
      AtTimeCons([x], t);
    }
  }

  /** Sorting keeps the records of each creation time in their original order: it is stable. */
  lemma {:induction false} SortIsStable(s: seq<Win>, t: int)
    ensures AtTime(SortByRecency(s), t) == AtTime(s, t)
    decreases |s|
  {
    if |s| > 0 {
      var init, x := s[..|s| - 1], s[|s| - 1];
      assert s == init + [x];
      SortIsStable(init, t);
      InsertAtTime(SortByRecency(init), x, t);
      AtTimeConcat(init, [x], t);
    }
  }

  /** A newest-first record is at least as new as every record of the sequence. */
  lemma FirstIsNewest(s: seq<Win>, w: Win)
    requires NewestFirst(s) && |s| > 0 && w in s
    ensures w.createdAt <= s[0].createdAt
  {
    var k :| 0 <= k < |s| && s[k] == w;
    if k > 0 {
      assert s[0].createdAt >= s[k].createdAt;
    }
  }

  /**
   * Two newest-first sequences that agree on the order of the records of every creation time
   * are equal: the stable newest-first order of a list is unique, so `SortByRecency` computes
   * the same list as any stable sort with the source's comparator.
   */
  lemma {:induction false} StableOrderUnique(a: seq<Win>, b: seq<Win>)
    requires NewestFirst(a) && NewestFirst(b)
    requires forall t :: AtTime(a, t) == AtTime(b, t)
    ensures a == b
    decreases |a|
  {
    if |a| == 0 || |b| == 0 {
      if |a| > 0 {
        AtTimeCons(a, a[0].createdAt);
        assert false;
      } else if |b| > 0 {
        AtTimeCons(b, b[0].createdAt);
        assert false;
      }
    } else {
      var ta, tb := a[0].createdAt, b[0].createdAt;
      AtTimeCons(a, ta);
      AtTimeCons(b, tb);
      AtTimeMembers(b, ta);
      assert a[0] in AtTime(b, ta);
      FirstIsNewest(b, a[0]);
      AtTimeMembers(a, tb);
      assert b[0] in AtTime(a, tb);
      FirstIsNewest(a, b[0]);
      assert ta == tb;
      assert AtTime(a, ta) == AtTime(b, ta);
      assert AtTime(a, ta)[0] == a[0];
      assert AtTime(b, tb)[0] == b[0];
      forall t
        ensures AtTime(a[1..], t) == AtTime(b[1..], t)
      {
        AtTimeCons(a, t);
        AtTimeCons(b, t);
        var h := if a[0].createdAt == t then [a[0]] else [];
        assert AtTime(a[1..], t) == (h + AtTime(a[1..], t))[|h|..];
        assert AtTime(b[1..], t) == (h + AtTime(b[1..], t))[|h|..];
      }
      assert NewestFirst(a[1..]) && NewestFirst(b[1..]);
      StableOrderUnique(a[1..], b[1..]);
      assert a == [a[0]] + a[1..];
      assert b == [b[0]] + b[1..];
    }
  }

  /** Any stable newest-first permutation of `s` is exactly `SortByRecency(s)`. */
  lemma SortIsTheStableOrder(s: seq<Win>, r: seq<Win>)
    requires NewestFirst(r)
    requires forall t :: AtTime(r, t) == AtTime(s, t)
    ensures r == SortByRecency(s)
  {
    forall t
      ensures AtTime(r, t) == AtTime(SortByRecency(s), t)
    {
      SortIsStable(s, t);
    }
    StableOrderUnique(r, SortByRecency(s));
  }
}

=== FILE: records.dfy ===
/** The win record as stored under `wins:{id}`, and the normalisation applied to it on submission. */
module Records {
  import opened Seqs

  /**
   * One posted win. `createdAt` is the creation time in milliseconds (the source stores it
   * as an ISO timestamp and compares it through `Date`); `fires` is the reaction counter.
   */
  datatype Win = Win(
    id: string,
    imageId: string,
    channel: string,
    amountWon: string,
    comment: string,
    userName: string,
    userId: string,
    userTier: string,
    fires: nat,
    createdAt: int)

  /** The characters the amount keeps: the class `[0-9.]`. */
  predicate AmountChar(c: char)
  {
    '0' <= c <= '9' || c == '.'
  }

  /** Every character of `s` is a digit or a decimal point. */
  predicate IsNormalAmount(s: string)
  {
    forall i :: 0 <= i < |s| ==> AmountChar(s[i])
  }

  /** `String(amountWon).replace(/[^0-9.]/g, "")`: strips every character outside `[0-9.]`. */
  function NormaliseAmount(s: string): (r: string)
    ensures IsNormalAmount(r)
    ensures IsSubseq(r, s)
    ensures forall c :: AmountChar(c) ==> multiset(r)[c] == multiset(s)[c]
    ensures forall c :: !AmountChar(c) ==> c !in r
  {
    KeepIsSubseq(s, AmountChar);
    KeepCounts(s, AmountChar);
    var r := Keep(s, AmountChar);
    assert forall i :: 0 <= i < |r| ==> r[i] in r;
    r
  }

  /** Normalising a normalised amount returns it unchanged. */
  lemma NormaliseIdempotent(s: string)
    ensures NormaliseAmount(NormaliseAmount(s)) == NormaliseAmount(s)
  {
    NormaliseFixedPoint(NormaliseAmount(s));
  }

  /** An amount is left unchanged by normalisation exactly when it is already normal. */
  lemma NormaliseFixedPoint(s: string)
    ensures NormaliseAmount(s) == s <==> IsNormalAmount(s)
  {
    if IsNormalAmount(s) {
      KeepAll(s, AmountChar);
    }
  }

  /** JavaScript's `value || fallback` on a string: the empty string counts as absent. */
  function OrDefault(value: string, fallback: string): string
  {
    if value == "" then fallback else value
  }
}

=== FILE: relative.dfy ===
/**
 * `formatRelative`: how long ago a win was posted, from the elapsed milliseconds
 * (`Date.now() - createdAt`), using floor divisions down to minutes, hours, days and weeks.
 */
module RelativeTime {
  import opened Clock

  function DigitChar(d: int): char
    requires 0 <= d < 10
  {
    ('0' as int + d) as char
  }

  /** The decimal digits of `n`, as a template literal prints an integer. */
  function Decimal(n: nat): (r: string)
    ensures |r| >= 1
    ensures forall i :: 0 <= i < |r| ==> '0' <= r[i] <= '9'
    ensures r[0] == '0' ==> n == 0
    decreases n
  {
    if n < 10 then [DigitChar(n)] else Decimal(n / 10) + [DigitChar(n % 10)]
  }

  /** Reads a string of decimal digits back as a number. */
  function DecimalValue(s: string): nat
    requires forall i :: 0 <= i < |s| ==> '0' <= s[i] <= '9'
    decreases |s|
  {
    if |s| == 0 then 0 else DecimalValue(s[..|s| - 1]) * 10 + (s[|s| - 1] as int - '0' as int)
  }

  /** The printed number reads back as itself: distinct counts print differently. */
  lemma {:induction false} DecimalRoundTrip(n: nat)
    ensures DecimalValue(Decimal(n)) == n
    decreases n
  {
    if n >= 10 {
      DecimalRoundTrip(n / 10);
      var r := Decimal(n);
      assert r[..|r| - 1] == Decimal(n / 10);
    }
  }

  /** `formatRelative` for `elapsed` milliseconds. */
  function FormatRelative(elapsed: int): (r: string)
    ensures elapsed < MinuteMs ==> r == "Just now"
    ensures MinuteMs <= elapsed < HourMs ==>
      1 <= elapsed / MinuteMs < 60 && r == Decimal(elapsed / MinuteMs) + "m ago"
    ensures HourMs <= elapsed < DayMs ==>
      1 <= elapsed / HourMs < 24 && r == Decimal(elapsed / HourMs) + "h ago"
    ensures DayMs <= elapsed < WeekMs ==>
      1 <= elapsed / DayMs < 7 && r == Decimal(elapsed / DayMs) + "d ago"
    ensures WeekMs <= elapsed ==>
      1 <= elapsed / WeekMs && r == Decimal(elapsed / WeekMs) + "w ago"
  {
    var mins := elapsed / 60000;
    if mins < 1 then "Just now"
    else if mins < 60 then Decimal(mins) + "m ago"
    else
      var hrs := mins / 60;
      if hrs < 24 then
        FloorChain(elapsed);
        Decimal(hrs) + "h ago"
      else
        var days := hrs / 24;
        FloorChain(elapsed);
        if days < 7 then Decimal(days) + "d ago"
        else
          Decimal(days / 7) + "w ago"
  }

  /** Flooring twice is flooring once by the product (`Math.floor` chains). */
  lemma FloorChain(x: int)
    ensures (x / MinuteMs) / 60 == x / HourMs
    ensures (x / HourMs) / 24 == x / DayMs
    ensures (x / DayMs) / 7 == x / WeekMs
  {
  }
}

=== FILE: results.dfy ===
/** Failure-compatible wrappers shared by the handlers of the wins store. */
module Results {

  /** An optional value; `None` stands for JavaScript's `null`/`undefined`. */
  datatype Option<+T> = None | Some(value: T)

  /** The error outcomes a handler answers with: 400, 401, 404 and 500. */
  datatype Status = BadRequest | Unauthorized | NotFound | ServerError

  /** A handler's JSON answer: a success payload or an error status. */
  datatype Result<+T> = Ok(value: T) | Err(status: Status)
}

=== FILE: scenarios.dfy ===
/** Properties that span several requests: a submission followed by a listing, a delete followed by reads. */
module Scenarios {
  import opened Results
  import opened Records
  import opened Store
  import opened Recency
  import opened Stats
  import opened Upload
  import opened Wins

  /** An id the generator can mint: non-empty, not the index's name, unused as a key and in the index. */
  ghost predicate FreshId(s: Store, id: string)
  {
    && id != "" && id != "index"
    && RecordKey(id) !in s
    && (ReadIndex(s).Some? ==> id !in ReadIndex(s).value)
  }

  /** After a successful POST with a fresh id, the index loads the old records followed by the new one. */
  lemma PostLoadsAppended(s: Store, req: PostRequest, id: string, now: int)
    requires Valid(s) && FreshId(s, id) && !MissingRequired(req)
    ensures Post(s, req, id, now, true, true).response.Ok?
    ensures
      var posted := Post(s, req, id, now, true, true);
      var before := LoadWins(s, ReadIndex(s).value);
      && ReadIndex(posted.store).Some?
      && LoadWins(posted.store, ReadIndex(posted.store).value) == before + [posted.response.value]
      && forall v :: v in before ==> v.id != id
  {
    KeyFamilies(id, "");
    ValidReads(s, id);
    var posted := Post(s, req, id, now, true, true);
    var w := posted.response.value;
    var s' := posted.store;
    var ids := ReadIndex(s).value;
    assert ReadIndex(s') == Some(ids + [id]);
    KeysInjective();
    forall x | x in ids
      ensures LoadRecord(s', x) == LoadRecord(s, x)
    {
      KeyFamilies(x, "");
    }
    LoadWinsAgree(s, s', ids);
    LoadWinsConcat(s', ids, [id]);
    assert LoadWins(s', [id]) == [w];
    var before := LoadWins(s, ids);
    forall v | v in before
      ensures v.id != id
    {
      var x :| x in ids && LoadRecord(s, x) == Some(v);
      ValidReads(s, x);
    }
  }

  /** A successful submission appears exactly once in the next listing, whatever the clock then says. */
  lemma PostThenListShowsOnce(s: Store, req: PostRequest, id: string, now: int, later: int, amount: string -> real)
    requires Valid(s) && FreshId(s, id) && !MissingRequired(req)
    ensures Post(s, req, id, now, true, true).response.Ok?
    ensures
      var posted := Post(s, req, id, now, true, true);
      var listed := List(posted.store, later, amount).wins;
      && multiset(listed)[posted.response.value] == 1
      && forall v :: v in listed && v.id == id ==> v == posted.response.value
  {
    PostLoadsAppended(s, req, id, now);
    var posted := Post(s, req, id, now, true, true);
    var w := posted.response.value;
    var before := LoadWins(s, ReadIndex(s).value);
    assert w.id == id;
    assert w !in before;
    assert multiset(before + [w])[w] == multiset(before)[w] + 1;
    var listed := List(posted.store, later, amount).wins;
    assert multiset(listed) == multiset(before + [w]);
    forall v | v in listed && v.id == id
      ensures v == w
    {
      assert v in multiset(before + [w]);
    }
  }

  /**
   * After a delete, no listed record carries the deleted id, and the image the record named
   * is no longer found.
   */
  lemma DeleteThenReads(s: Store, header: Option<string>, secret: Option<string>, id: string, now: int, amount: string -> real)
    requires Valid(s) && Authorized(header, secret) && id != ""
    ensures Delete(s, header, secret, id).response.Ok?
    ensures
      var deleted := Delete(s, header, secret, id);
      && (forall v :: v in List(deleted.store, now, amount).wins ==> v.id != id)
      && (LoadRecord(s, id).Some? && LoadRecord(s, id).value.imageId != "" ==>
            FetchImage(deleted.store, LoadRecord(s, id).value.imageId) == Err(NotFound))
  {
    KeyFamilies(id, "");
    var deleted := Delete(s, header, secret, id);
    DeletePreservesValid(s, header, secret, id);
    var s' := deleted.store;
    ValidReads(s', id);
    var ids := ReadIndex(s').value;
    forall v | v in List(s', now, amount).wins
      ensures v.id != id
    {
      var x :| x in ids && LoadRecord(s', x) == Some(v);
      ValidReads(s', x);
    }
  }

  /** Uploading an image and then posting a record that names it leaves the image fetchable. */
  lemma UploadThenPostKeepsImage(s: Store, payload: string, suffix: string, req: PostRequest, id: string, now: int, recordStored: bool, indexStored: bool)
    requires payload != "" && req.imageId == ImageIdPrefix + suffix
    ensures
      var uploaded := UploadImage(s, payload, suffix, true);
      var posted := Post(uploaded.store, req, id, now, recordStored, indexStored);
      && uploaded.response == Ok(req.imageId)
      && FetchImage(posted.store, req.imageId) == Ok(payload)
  {
    KeyFamilies(id, req.imageId);
    KeyFamilies("", req.imageId);
  }

  /**
   * Three wins of "100", "250" and "80" posted now, now and ten days ago: three posted, two
   * this week, 350 won this week, and the biggest win is the "250" one.
   */
  lemma WeeklyStatsExample(now: int, amount: string -> real, a: Win, b: Win, c: Win)
    requires amount("100") == 100.0 && amount("250") == 250.0 && amount("80") == 80.0
    requires a.amountWon == "100" && b.amountWon == "250" && c.amountWon == "80"
    requires a.createdAt == now && b.createdAt == now && c.createdAt == now - 10 * 24 * 60 * 60 * 1000
    ensures
      var st := ComputeStats(SortByRecency([a, b, c]), now, amount);
      && st.winsPosted == 3 && st.winsThisWeek == 2 && st.totalWonThisWeek == 350.0
      && st.biggestWin == Some(b)
  {
    assert NewestFirst([a, b, c]);
    SortIsTheStableOrder([a, b, c], [a, b, c]);
    ExampleWeek(now, a, b, c);
    ExampleReductions(amount, a, b);
  }

  lemma ExampleWeek(now: int, a: Win, b: Win, c: Win)
    requires a.createdAt == now && b.createdAt == now && c.createdAt == now - 10 * 24 * 60 * 60 * 1000
    ensures ThisWeek([a, b, c], now) == [a, b]
  {
    ThisWeekCons([a, b, c], now);
    ThisWeekCons([b, c], now);
    ThisWeekCons([c], now);
    assert [a, b, c][1..] == [b, c];
    assert [b, c][1..] == [c];
    assert [c][1..] == [];
  }

  lemma ExampleReductions(amount: string -> real, a: Win, b: Win)
    requires amount("100") == 100.0 && amount("250") == 250.0
    requires a.amountWon == "100" && b.amountWon == "250"
    ensures SumFrom(0.0, [a, b], amount) == 350.0
    ensures BiggestFrom(a, [a, b], amount) == b
  {
    assert [a, b][1..] == [b];
    assert [b][1..] == [];
    assert SumFrom(350.0, [], amount) == 350.0;
    assert SumFrom(100.0, [b], amount) == SumFrom(350.0, [], amount);
    assert SumFrom(0.0, [a, b], amount) == SumFrom(100.0, [b], amount);
    assert BiggestFrom(b, [], amount) == b;
    assert BiggestFrom(a, [b], amount) == BiggestFrom(b, [], amount);
    assert BiggestFrom(a, [a, b], amount) == BiggestFrom(a, [b], amount);
  }
}

=== FILE: seqs.dfy ===
/** Sequence helpers: `Array.prototype.filter` and the subsequence relation it produces. */
module Seqs {

  /** The elements of `s` satisfying `p`, in their original order (`s.filter(p)`). */
  function Keep<T(==,!new)>(s: seq<T>, p: T -> bool): (r: seq<T>)
    ensures |r| <= |s|
  {
    if |s| == 0 then []
    else
      assert s == [s[0]] + s[1..];
      (if p(s[0]) then [s[0]] else []) + Keep(s[1..], p)
  }

  /** The survivors of a filter are exactly the elements that satisfy it. */
  lemma {:induction false} KeepMembers<T(!new)>(s: seq<T>, p: T -> bool)
    ensures forall x :: x in Keep(s, p) <==> x in s && p(x)
    decreases |s|
  {
    if |s| > 0 {
      KeepMembers(s[1..], p);
      assert s == [s[0]] + s[1..];
    }
  }

  /** Filtering keeps every occurrence of a satisfying element and no occurrence of another. */
  lemma {:induction false} KeepCounts<T(!new)>(s: seq<T>, p: T -> bool)
    ensures forall x :: multiset(Keep(s, p))[x] == if p(x) then multiset(s)[x] else 0
    decreases |s|
  {
    if |s| > 0 {
      KeepCounts(s[1..], p);
      assert s == [s[0]] + s[1..];
    }
  }

  /** `a` is obtained from `b` by deleting some elements; the rest keep their order. */
  predicate IsSubseq<T(==,!new)>(a: seq<T>, b: seq<T>)
    decreases |b|
  {
    if |a| == 0 then true
    else if |b| == 0 then false
    else if a[0] == b[0] then IsSubseq(a[1..], b[1..])
    else IsSubseq(a, b[1..])
  }

  /** Filtering keeps the survivors in their original relative order. */
  lemma {:induction false} KeepIsSubseq<T(!new)>(s: seq<T>, p: T -> bool)
    ensures IsSubseq(Keep(s, p), s)
    decreases |s|
  {
    if |s| > 0 {
      KeepIsSubseq(s[1..], p);
      var rest := Keep(s[1..], p);
      if p(s[0]) {
        assert Keep(s, p) == [s[0]] + rest;
        assert ([s[0]] + rest)[1..] == rest;
      } else {
        assert Keep(s, p) == rest;
        KeepMembers(s[1..], p);
        if |rest| > 0 {
          assert rest[0] in rest;
          assert rest[0] != s[0];
        }
      }
    }
  }

  /** Filtering with a predicate every element satisfies changes nothing. */
  lemma {:induction false} KeepAll<T(!new)>(s: seq<T>, p: T -> bool)
    requires forall i :: 0 <= i < |s| ==> p(s[i])
    ensures Keep(s, p) == s
    decreases |s|
  {
    if |s| > 0 {
      KeepAll(s[1..], p);
      assert [s[0]] + s[1..] == s;
    }
  }

  /** Filtering distributes over concatenation. */
  lemma {:induction false} KeepConcat<T(!new)>(a: seq<T>, b: seq<T>, p: T -> bool)
    ensures Keep(a + b, p) == Keep(a, p) + Keep(b, p)
    decreases |a|
  {
    if |a| == 0 {
      assert a + b == b;
    } else {
      KeepConcat(a[1..], b, p);
      var head := if p(a[0]) then [a[0]] else [];
      assert (a + b)[0] == a[0];
      assert (a + b)[1..] == a[1..] + b;
      calc {
        Keep(a + b, p);
        head + Keep(a[1..] + b, p);
        head + (Keep(a[1..], p) + Keep(b, p));
        (head + Keep(a[1..], p)) + Keep(b, p);
        Keep(a, p) + Keep(b, p);
      }
    }
  }

  /** `s` with every occurrence of `x` removed (`s.filter(i => i !== x)`). */
  function Without<T(==,!new)>(s: seq<T>, x: T): (r: seq<T>)
    ensures x !in r
    ensures forall y :: y != x ==> multiset(r)[y] == multiset(s)[y]
    ensures IsSubseq(r, s)
  {
    KeepIsSubseq(s, y => y != x);
    KeepCounts(s, y => y != x);
    KeepMembers(s, y => y != x);
    Keep(s, y => y != x)
  }

  /** Removing an element twice is the same as removing it once. */
  lemma WithoutIdempotent<T(!new)>(s: seq<T>, x: T)
    ensures Without(Without(s, x), x) == Without(s, x)
  {
    var r := Without(s, x);
    KeepAll(r, y => y != x);
  }
}

=== FILE: stats.dfy ===
/**
 * The weekly statistics of the wins listing: a reduction over the newest-first list of
 * loaded records and the current time. `amount` stands for `parseFloat(s) || 0`.
 */
module Stats {
  import opened Results
  import opened Seqs
  import opened Records
  import opened Clock

  /** `new Date(w.createdAt) >= weekAgo` with `weekAgo = now - 7 days`. */
  predicate InWeek(w: Win, now: int)
  {
    w.createdAt >= now - WeekMs
  }

  function InWeekOf(now: int): Win -> bool
  {
    (w: Win) => InWeek(w, now)
  }

  /** `wins.filter(w => new Date(w.createdAt) >= weekAgo)`. */
  function ThisWeek(wins: seq<Win>, now: int): seq<Win>
  {
    Keep(wins, InWeekOf(now))
  }

  /** `s.reduce((sum, w) => sum + amount(w.amountWon), acc)`. */
  function SumFrom(acc: real, s: seq<Win>, amount: string -> real): real
    decreases |s|
  {
    if |s| == 0 then acc else SumFrom(acc + amount(s[0].amountWon), s[1..], amount)
  }

  /** `s.reduce((max, w) => amount(w) > amount(max) ? w : max, max)`. */
  function BiggestFrom(max: Win, s: seq<Win>, amount: string -> real): Win
    decreases |s|
  {
    if |s| == 0 then max
    else
      var next := if amount(s[0].amountWon) > amount(max.amountWon) then s[0] else max;
      BiggestFrom(next, s[1..], amount)
  }

  datatype WeeklyStats = WeeklyStats(
    totalWonThisWeek: real,
    winsPosted: nat,
    winsThisWeek: nat,
    biggestWin: Option<Win>)

  /** Reference count: how many records of `wins` fall in the trailing week. */
  function WeekCount(wins: seq<Win>, now: int): nat
    decreases |wins|
  {
    if |wins| == 0 then 0
    else (if InWeek(wins[0], now) then 1 else 0) + WeekCount(wins[1..], now)
  }

  /** Reference sum: every record's amount if it falls in the trailing week, nothing otherwise. */
  function WeekTotal(wins: seq<Win>, now: int, amount: string -> real): real
    decreases |wins|
  {
    if |wins| == 0 then 0.0
    else (if InWeek(wins[0], now) then amount(wins[0].amountWon) else 0.0) + WeekTotal(wins[1..], now, amount)
  }

  lemma ThisWeekCons(wins: seq<Win>, now: int)
    requires |wins| > 0
    ensures ThisWeek(wins, now) == (if InWeek(wins[0], now) then [wins[0]] else []) + ThisWeek(wins[1..], now)
  {
  }

  /** The week partition has exactly as many records as the reference count says. */
  lemma {:induction false} ThisWeekCount(wins: seq<Win>, now: int)
    ensures |ThisWeek(wins, now)| == WeekCount(wins, now)
    decreases |wins|
  {
    if |wins| > 0 {
      ThisWeekCons(wins, now);
      ThisWeekCount(wins[1..], now);
    }
  }

  /** Folding the amounts of the week partition adds exactly the reference week total. */
  lemma {:induction false} TotalIsWeekSum(acc: real, wins: seq<Win>, now: int, amount: string -> real)
    ensures SumFrom(acc, ThisWeek(wins, now), amount) == acc + WeekTotal(wins, now, amount)
    decreases |wins|
  {
    if |wins| > 0 {
      ThisWeekCons(wins, now);
      var rest := ThisWeek(wins[1..], now);
      if InWeek(wins[0], now) {
        assert ([wins[0]] + rest)[1..] == rest;
        TotalIsWeekSum(acc + amount(wins[0].amountWon), wins[1..], now, amount);
      } else {
        assert [] + rest == rest;
        TotalIsWeekSum(acc, wins[1..], now, amount);
      }
    }
  }

  /**
   * The fold keeps the first record of strictly greatest amount: its result is at least the
   * start value and every element, and it is either the start value or the earliest element
   * whose amount beats everything before it.
   */
  lemma {:induction false} BiggestFromSpec(max: Win, s: seq<Win>, amount: string -> real)
    ensures var r := BiggestFrom(max, s, amount);
      && amount(max.amountWon) <= amount(r.amountWon)
      && (forall j :: 0 <= j < |s| ==> amount(s[j].amountWon) <= amount(r.amountWon))
      && (r == max || exists i :: 0 <= i < |s| && r == s[i] && amount(max.amountWon) < amount(s[i].amountWon)
                                  && forall j :: 0 <= j < i ==> amount(s[j].amountWon) < amount(s[i].amountWon))
    decreases |s|
  {
    if |s| > 0 {
      var next := if amount(s[0].amountWon) > amount(max.amountWon) then s[0] else max;
      BiggestFromSpec(next, s[1..], amount);
      var r := BiggestFrom(max, s, amount);
      assert r == BiggestFrom(next, s[1..], amount);
      if r == next {
        if next == s[0] && amount(max.amountWon) < amount(s[0].amountWon) {
          assert r == s[0];
        }
      } else {
        var k :| 0 <= k < |s[1..]| && r == s[1..][k] && amount(next.amountWon) < amount(s[1..][k].amountWon)
                 && forall j :: 0 <= j < k ==> amount(s[1..][j].amountWon) < amount(s[1..][k].amountWon);
        assert r == s[k + 1];
        forall j | 0 <= j < k + 1
          ensures amount(s[j].amountWon) < amount(s[k + 1].amountWon)
        {
          if j > 0 {
            assert s[j] == s[1..][j - 1];
          }
        }
      }
    }
  }

  /**
   * GET /api/wins statistics over the newest-first list `wins` at time `now`.
   */
  function ComputeStats(wins: seq<Win>, now: int, amount: string -> real): (st: WeeklyStats)
    ensures st.winsPosted == |wins|
    ensures st.winsThisWeek == WeekCount(wins, now)
    ensures st.winsThisWeek <= st.winsPosted
    ensures st.totalWonThisWeek == WeekTotal(wins, now, amount)
    ensures st.biggestWin.None? <==> forall w :: w in wins ==> !InWeek(w, now)
    ensures st.biggestWin.Some? ==>
      var b := st.biggestWin.value;
      && b in wins && InWeek(b, now)
      && forall w :: w in wins && InWeek(w, now) ==> amount(w.amountWon) <= amount(b.amountWon)
  {
    var week := ThisWeek(wins, now);
    ThisWeekCount(wins, now);
    TotalIsWeekSum(0.0, wins, now, amount);
    KeepMembers(wins, InWeekOf(now));
    var biggest := if |week| > 0 then Some(BiggestFrom(week[0], week, amount)) else None;
    if |week| > 0 then
      BiggestFromSpec(week[0], week, amount);
      assert week[0] in week;
      assert forall w :: w in week ==> amount(w.amountWon) <= amount(biggest.value.amountWon);
      WeeklyStats(SumFrom(0.0, week, amount), |wins|, |week|, biggest)
    else
      WeeklyStats(SumFrom(0.0, week, amount), |wins|, |week|, biggest)
  }

  /**
   * On ties the earliest record of the week partition wins: the biggest win is the first
   * record of the partition whose amount is not exceeded by any other.
   */
  lemma BiggestIsEarliestMaximum(wins: seq<Win>, now: int, amount: string -> real)
    requires ComputeStats(wins, now, amount).biggestWin.Some?
    ensures
      var week := ThisWeek(wins, now);
      var b := ComputeStats(wins, now, amount).biggestWin.value;
      exists i :: 0 <= i < |week| && week[i] == b
        && (forall j :: 0 <= j < i ==> amount(week[j].amountWon) < amount(b.amountWon))
        && (forall j :: 0 <= j < |week| ==> amount(week[j].amountWon) <= amount(b.amountWon))
  {
    var week := ThisWeek(wins, now);
    BiggestFromSpec(week[0], week, amount);
  }
}

=== FILE: store.dfy ===
/**
 * The single-key backend the handlers share, seen through the three key families the wins
 * store uses: `wins:index` (the JSON list of record ids), `wins:{id}` (one record) and
 * `wins-image:{imageId}` (one image payload). A value is modelled by what it decodes to.
 */
module Store {
  import opened Results
  import opened Records

  /** The decoded content of one backend key. */
  datatype Entry = IndexEntry(ids: seq<string>) | RecordEntry(win: Win) | ImageEntry(payload: string)

  type Store = map<string, Entry>

  /** The store after a request, and the response the handler sent. */
  datatype Step<+T> = Step(store: Store, response: Result<T>)

  const IndexKey: string := "wins:index"

  function RecordKey(id: string): string
  {
    "wins:" + id
  }

  function ImageKey(imageId: string): string
  {
    "wins-image:" + imageId
  }

  /** Record keys and image keys never meet; a record key meets the index key only for the id `index`. */
  lemma KeyFamilies(id: string, imageId: string)
    ensures RecordKey(id) != ImageKey(imageId)
    ensures ImageKey(imageId) != IndexKey
    ensures RecordKey(id) == IndexKey <==> id == "index"
  {
    assert RecordKey(id)[4] == ':' && ImageKey(imageId)[4] == '-' && IndexKey[4] == ':';
    if RecordKey(id) == IndexKey {
      assert id == RecordKey(id)[5..] == IndexKey[5..];
    }
  }

  /** Distinct ids have distinct record keys and distinct image keys. */
  lemma KeysInjective()
    ensures forall a, b :: RecordKey(a) == RecordKey(b) ==> a == b
    ensures forall a, b :: ImageKey(a) == ImageKey(b) ==> a == b
  {
    forall a, b | RecordKey(a) == RecordKey(b)
      ensures a == b
    {
      assert a == RecordKey(a)[5..];
      assert b == RecordKey(b)[5..];
    }
    forall a, b | ImageKey(a) == ImageKey(b)
      ensures a == b
    {
      assert a == ImageKey(a)[11..];
      assert b == ImageKey(b)[11..];
    }
  }

  /**
   * `indexRaw ? JSON.parse(indexRaw) : []`: an absent index reads as empty; a value that is
   * not an id list cannot be used as one and the handler fails (`None`).
   */
  function ReadIndex(s: Store): Option<seq<string>>
  {
    if IndexKey !in s then Some([])
    else match s[IndexKey]
      case IndexEntry(ids) => Some(ids)
      case _ => None
  }

  /** The record stored for `id`, if its key holds one. */
  function LoadRecord(s: Store, id: string): Option<Win>
  {
    if RecordKey(id) in s && s[RecordKey(id)].RecordEntry? then Some(s[RecordKey(id)].win) else None
  }

  /** Every key outside `keys` is untouched between `s` and `s'`. */
  ghost predicate Frame(s: Store, s': Store, keys: set<string>)
  {
    forall k :: k !in keys ==> (k in s <==> k in s') && (k in s ==> s[k] == s'[k])
  }

  /**
   * The layout the handlers maintain: the index key holds an id list, the record key of `id`
   * holds the record whose `id` field is `id`, and image keys hold payloads.
   */
  ghost predicate Valid(s: Store)
  {
    && (IndexKey in s ==> s[IndexKey].IndexEntry?)
    && (forall id :: RecordKey(id) in s && RecordKey(id) != IndexKey ==>
          s[RecordKey(id)].RecordEntry? && s[RecordKey(id)].win.id == id)
    && (forall imageId :: ImageKey(imageId) in s ==> s[ImageKey(imageId)].ImageEntry?)
  }

  /** In a valid store the index always reads, and a loaded record carries the id it was loaded by. */
  lemma ValidReads(s: Store, id: string)
    requires Valid(s)
    ensures ReadIndex(s).Some?
    ensures LoadRecord(s, id).Some? ==> LoadRecord(s, id).value.id == id
    ensures RecordKey(id) in s && id != "index" ==> LoadRecord(s, id).Some?
  {
    KeyFamilies(id, "");
  }
}

=== FILE: upload.dfy ===
/** The image endpoints: POST stores a payload under a fresh image id, GET fetches it back. */
module Upload {
  import opened Results
  import opened Store

  /** The prefix of every image id the upload endpoint mints. */
  const ImageIdPrefix: string := "img_"

  /**
   * POST /api/upload. `suffix` stands for the generated part of the id (base-36 time plus
   * random characters) and `stored` for whether the backend accepted the write.
   */
  function UploadImage(s: Store, imageBase64: string, suffix: string, stored: bool): (out: Step<string>)
    ensures imageBase64 == "" ==> out == Step(s, Err(BadRequest))
    ensures imageBase64 != "" && !stored ==> out == Step(s, Err(ServerError))
    ensures out.response.Ok? <==> imageBase64 != "" && stored
    ensures out.response.Ok? ==>
      var imageId := out.response.value;
      && |imageId| >= |ImageIdPrefix| && imageId[..|ImageIdPrefix|] == ImageIdPrefix
      && ImageKey(imageId) in out.store && out.store[ImageKey(imageId)] == ImageEntry(imageBase64)
    ensures Frame(s, out.store, {ImageKey(ImageIdPrefix + suffix)})
  {
    if imageBase64 == "" then Step(s, Err(BadRequest))
    else
      var imageId := ImageIdPrefix + suffix;
      if !stored then Step(s, Err(ServerError))
      else Step(s[ImageKey(imageId) := ImageEntry(imageBase64)], Ok(imageId))
  }

  /** GET /api/upload?id=: the payload stored under the image id. */
  function FetchImage(s: Store, imageId: string): (r: Result<string>)
    ensures imageId == "" ==> r == Err(BadRequest)
    ensures imageId != "" && (ImageKey(imageId) !in s || s[ImageKey(imageId)] == ImageEntry("")) ==>
      r == Err(NotFound)
    ensures r.Ok? ==> r.value != "" && ImageKey(imageId) in s && s[ImageKey(imageId)] == ImageEntry(r.value)
    ensures imageId != "" && ImageKey(imageId) in s && s[ImageKey(imageId)].ImageEntry? && s[ImageKey(imageId)].payload != "" ==>
      r == Ok(s[ImageKey(imageId)].payload)
    ensures r.Err? ==> r.status in {BadRequest, NotFound}
  {
    if imageId == "" then Err(BadRequest)
    else if ImageKey(imageId) in s && s[ImageKey(imageId)].ImageEntry? && s[ImageKey(imageId)].payload != "" then
      Ok(s[ImageKey(imageId)].payload)
    else Err(NotFound)
  }

  /** Without an id the answer does not depend on the store: it is never read. */
  lemma FetchWithoutIdReadsNothing(s1: Store, s2: Store)
    ensures FetchImage(s1, "") == FetchImage(s2, "") == Err(BadRequest)
  {
  }

  /** Uploading a payload and fetching the returned id yields the payload. */
  lemma UploadFetchRoundTrip(s: Store, payload: string, suffix: string)
    requires payload != ""
    ensures UploadImage(s, payload, suffix, true).response.Ok?
    ensures
      var out := UploadImage(s, payload, suffix, true);
      FetchImage(out.store, out.response.value) == Ok(payload)
  {
  }

  /** An upload keeps the store's layout valid. */
  lemma UploadPreservesValid(s: Store, payload: string, suffix: string, stored: bool)
    requires Valid(s)
    ensures Valid(UploadImage(s, payload, suffix, stored).store)
  {
    var imageId := ImageIdPrefix + suffix;
    KeysInjective();
    forall id | RecordKey(id) == ImageKey(imageId)
      ensures false
    {
      KeyFamilies(id, imageId);
    }
    KeyFamilies("", imageId);
  }
}

=== FILE: wins.dfy ===
/**
 * The wins endpoints: GET lists the indexed records with weekly statistics, POST submits a
 * record, PUT adds a fire reaction, DELETE removes a record for the admin. Each handler that
 * writes is a function from the store and the request to the next store and the response;
 * the read-only GET takes the store and returns only its listing.
 */
module Wins {
  import opened Results
  import opened Seqs
  import opened Records
  import opened Store
  import opened Recency
  import opened Stats

  /** The POST body; an absent field is the empty string, as both are falsy in the source. */
  datatype PostRequest = PostRequest(
    imageId: string,
    channel: string,
    amountWon: string,
    comment: string,
    userName: string,
    userId: string,
    userTier: string)

  /** The GET answer: the records and, unless the listing failed, the statistics. */
  datatype Listing = Listing(wins: seq<Win>, stats: Option<WeeklyStats>)

  /** The records of the listed ids, in index order, skipping ids whose record is missing. */
  function LoadWins(s: Store, ids: seq<string>): (r: seq<Win>)
    ensures |r| <= |ids|
    ensures forall w :: w in r <==> exists id :: id in ids && LoadRecord(s, id) == Some(w)
    decreases |ids|
  {
    if |ids| == 0 then []
    else
      var rest := LoadWins(s, ids[1..]);
      assert forall id :: id in ids <==> id == ids[0] || id in ids[1..];
      match LoadRecord(s, ids[0])
      case Some(w) => [w] + rest
      case None => rest
  }

  lemma {:induction false} LoadWinsConcat(s: Store, a: seq<string>, b: seq<string>)
    ensures LoadWins(s, a + b) == LoadWins(s, a) + LoadWins(s, b)
    decreases |a|
  {
    if |a| == 0 {
      assert a + b == b;
    } else {
      assert (a + b)[0] == a[0];
      assert (a + b)[1..] == a[1..] + b;
      LoadWinsConcat(s, a[1..], b);
    }
  }

  /** Two stores that hold the same records for the listed ids load the same list. */
  lemma {:induction false} LoadWinsAgree(s1: Store, s2: Store, ids: seq<string>)
    requires forall id :: id in ids ==> LoadRecord(s1, id) == LoadRecord(s2, id)
    ensures LoadWins(s1, ids) == LoadWins(s2, ids)
    decreases |ids|
  {
    if |ids| > 0 {
      assert ids[0] in ids;
      assert forall id :: id in ids[1..] ==> id in ids;
      LoadWinsAgree(s1, s2, ids[1..]);
    }
  }

  /**
   * GET /api/wins. `now` is the server's clock in milliseconds. An index that cannot be read
   * as an id list makes the handler answer an empty listing with empty statistics.
   */
  function List(s: Store, now: int, amount: string -> real): (out: Listing)
    ensures ReadIndex(s).None? ==> out == Listing([], None)
    ensures ReadIndex(s).Some? ==>
      var ids := ReadIndex(s).value;
      && |out.wins| <= |ids|
      && NewestFirst(out.wins)
      && multiset(out.wins) == multiset(LoadWins(s, ids))
      && (forall w :: w in out.wins <==> exists id :: id in ids && LoadRecord(s, id) == Some(w))
      && (forall t :: AtTime(out.wins, t) == AtTime(LoadWins(s, ids), t))
      && out.stats == Some(ComputeStats(out.wins, now, amount))
      && out.stats.value.winsPosted == |out.wins|
  {
    match ReadIndex(s)
    case None => Listing([], None)
    case Some(ids) =>
      var loaded := LoadWins(s, ids);
      var wins := SortByRecency(loaded);
      SortKeepsMembers(loaded);
      assert forall t :: AtTime(wins, t) == AtTime(loaded, t) by {
        forall t
          ensures AtTime(wins, t) == AtTime(loaded, t)
        {
          SortIsStable(loaded, t);
        }
      }
      Listing(wins, Some(ComputeStats(wins, now, amount)))
  }

  /** `!imageId || !channel || !amountWon`. */
  predicate MissingRequired(req: PostRequest)
  {
    req.imageId == "" || req.channel == "" || req.amountWon == ""
  }

  /** The record POST builds: normalised amount, defaulted optional fields, no fires, server time. */
  function NewWin(req: PostRequest, id: string, now: int): Win
  {
    Win(
      id,
      req.imageId,
      req.channel,
      NormaliseAmount(req.amountWon),
      OrDefault(req.comment, ""),
      OrDefault(req.userName, "Anonymous"),
      OrDefault(req.userId, ""),
      OrDefault(req.userTier, "free"),
      0,
      now)
  }

  /**
   * POST /api/wins. `id` stands for the generated record id and `now` for the server clock;
   * `recordStored` and `indexStored` are the backend's answers to the two writes, which the
   * handler does not look at.
   */
  function Post(s: Store, req: PostRequest, id: string, now: int, recordStored: bool, indexStored: bool): (out: Step<Win>)
    ensures MissingRequired(req) <==> out.response == Err(BadRequest)
    ensures MissingRequired(req) ==> out.store == s
    ensures out.response.Err? ==> out.response.status in {BadRequest, ServerError}
    ensures out.response.Ok? ==>
      var w := out.response.value;
      && w.id == id && w.imageId == req.imageId && w.channel == req.channel
      && w.amountWon == NormaliseAmount(req.amountWon)
      && (req.comment == "" ==> w.comment == "") && (req.comment != "" ==> w.comment == req.comment)
      && (req.userName == "" ==> w.userName == "Anonymous") && (req.userName != "" ==> w.userName == req.userName)
      && (req.userId == "" ==> w.userId == "") && (req.userId != "" ==> w.userId == req.userId)
      && (req.userTier == "" ==> w.userTier == "free") && (req.userTier != "" ==> w.userTier == req.userTier)
      && w.fires == 0 && w.createdAt == now
    ensures out.response.Ok? && recordStored ==> LoadRecord(out.store, id) == Some(out.response.value)
    ensures out.response.Ok? && indexStored ==>
      ReadIndex(s).Some? && ReadIndex(out.store) == Some(ReadIndex(s).value + [id])
    ensures out.response.Ok? && !indexStored ==> ReadIndex(out.store) == ReadIndex(s)
    ensures !recordStored && !indexStored ==> out.store == s
    ensures !recordStored && id != "index" ==> LoadRecord(out.store, id) == LoadRecord(s, id)
    ensures Frame(s, out.store, {RecordKey(id), IndexKey})
  {
    if MissingRequired(req) then Step(s, Err(BadRequest))
    else
      var w := NewWin(req, id, now);
      var s1 := if recordStored then s[RecordKey(id) := RecordEntry(w)] else s;
      KeyFamilies(id, "");
      match ReadIndex(s1)
      case None => Step(s1, Err(ServerError))
      case Some(ids) =>
        Step(if indexStored then s1[IndexKey := IndexEntry(ids + [id])] else s1, Ok(w))
  }

  /**
   * PUT /api/wins: one more fire on the record of `id`. For the id `index` the record key is
   * the index key: the id list is parsed, given a count of 1 that its serialisation drops,
   * and written back unchanged.
   */
  function Fire(s: Store, id: string): (out: Step<nat>)
    ensures id == "" ==> out == Step(s, Err(BadRequest))
    ensures id != "" && RecordKey(id) !in s ==> out == Step(s, Err(NotFound))
    ensures id != "" && LoadRecord(s, id).Some? ==>
      var w := LoadRecord(s, id).value;
      && out.response == Ok(w.fires + 1)
      && LoadRecord(out.store, id) == Some(w.(fires := w.fires + 1))
    ensures out.response.Ok? ==> out.response.value >= 1
    ensures out.response.Err? ==> out.store == s
    ensures LoadRecord(s, id).None? ==> out.store == s
    ensures id != "" && RecordKey(id) in s && s[RecordKey(id)].IndexEntry? ==> out == Step(s, Ok(1))
    ensures Frame(s, out.store, {RecordKey(id)})
  {
    if id == "" then Step(s, Err(BadRequest))
    else if RecordKey(id) !in s then Step(s, Err(NotFound))
    else match s[RecordKey(id)]
      case RecordEntry(w) =>
        var fired := w.(fires := w.fires + 1);
        Step(s[RecordKey(id) := RecordEntry(fired)], Ok(fired.fires))
      case IndexEntry(_) => Step(s, Ok(1))
      case ImageEntry(_) => Step(s, Err(NotFound))
  }

  /** `req.headers.get("x-admin-secret") === process.env.ADMIN_SECRET`; an unset secret admits no one. */
  predicate Authorized(header: Option<string>, secret: Option<string>)
  {
    header.Some? && secret.Some? && header.value == secret.value
  }

  /** The image key a delete of `id` removes: the one its stored record names, if any. */
  function ImageKeysOf(s: Store, id: string): set<string>
  {
    match LoadRecord(s, id)
    case Some(w) => if w.imageId != "" then {ImageKey(w.imageId)} else {}
    case None => {}
  }

  /**
   * DELETE /api/wins: for the admin, removes the record's image, then the record, then the
   * id from the index. `header` is the request's secret header and `secret` the configured one.
   */
  function Delete(s: Store, header: Option<string>, secret: Option<string>, id: string): (out: Step<()>)
    ensures !Authorized(header, secret) ==> out == Step(s, Err(Unauthorized))
    ensures Authorized(header, secret) && id == "" ==> out == Step(s, Err(BadRequest))
    ensures out.response.Err? ==> out.response.status in {Unauthorized, BadRequest, ServerError}
    ensures out.response.Ok? ==>
      && LoadRecord(out.store, id).None?
      && ReadIndex(out.store).Some? && id !in ReadIndex(out.store).value
    ensures out.response.Ok? && id != "index" ==>
      ReadIndex(s).Some? && ReadIndex(out.store) == Some(Without(ReadIndex(s).value, id))
    ensures Authorized(header, secret) && id != "" ==>
      forall k :: k in ImageKeysOf(s, id) ==> k !in out.store
    ensures Frame(s, out.store, {RecordKey(id), IndexKey} + ImageKeysOf(s, id))
  {
    if !Authorized(header, secret) then Step(s, Err(Unauthorized))
    else if id == "" then Step(s, Err(BadRequest))
    else
      KeyFamilies(id, if LoadRecord(s, id).Some? then LoadRecord(s, id).value.imageId else "");
      var s1 := match LoadRecord(s, id)
        case Some(w) => if w.imageId != "" then s - {ImageKey(w.imageId)} else s
        case None => s;
      var s2 := s1 - {RecordKey(id)};
      match ReadIndex(s2)
      case None => Step(s2, Err(ServerError))
      case Some(ids) => Step(s2[IndexKey := IndexEntry(Without(ids, id))], Ok(()))
  }

  /** Repeating a delete changes nothing further and gets the same answer. */
  lemma DeleteIdempotent(s: Store, header: Option<string>, secret: Option<string>, id: string)
    ensures
      var out := Delete(s, header, secret, id);
      Delete(out.store, header, secret, id) == out
  {
    var out := Delete(s, header, secret, id);
    if Authorized(header, secret) && id != "" {
      KeyFamilies(id, "");
      assert LoadRecord(out.store, id).None?;
      assert out.store - {RecordKey(id)} == out.store || RecordKey(id) == IndexKey;
      if out.response.Ok? && id != "index" {
        WithoutIdempotent(ReadIndex(s).value, id);
        assert out.store[IndexKey := IndexEntry(Without(Without(ReadIndex(s).value, id), id))] == out.store;
      }
    }
  }

  /** Deleting the id `index` deletes the index itself: every record drops out of the listing. */
  lemma DeleteOfIndexIdEmptiesIndex(s: Store, header: Option<string>, secret: Option<string>)
    requires Authorized(header, secret)
    ensures Delete(s, header, secret, "index").response.Ok?
    ensures ReadIndex(Delete(s, header, secret, "index").store) == Some([])
  {
    KeyFamilies("index", "");
  }

  /** In a valid store a complete POST never fails on the index: it answers 400 or succeeds. */
  lemma PostFailsOnlyOnMissingFields(s: Store, req: PostRequest, id: string, now: int, recordStored: bool, indexStored: bool)
    requires Valid(s) && id != "index"
    ensures Post(s, req, id, now, recordStored, indexStored).response.Ok? <==> !MissingRequired(req)
  {
    KeyFamilies(id, "");
  }

  lemma PostPreservesValid(s: Store, req: PostRequest, id: string, now: int, recordStored: bool, indexStored: bool)
    requires Valid(s) && id != "index"
    ensures Valid(Post(s, req, id, now, recordStored, indexStored).store)
  {
    KeysInjective();
    KeyFamilies(id, "");
    forall imageId
      ensures RecordKey(id) != ImageKey(imageId)
    {
      KeyFamilies(id, imageId);
    }
  }

  lemma FirePreservesValid(s: Store, id: string)
    requires Valid(s)
    ensures Valid(Fire(s, id).store)
  {
    KeysInjective();
    forall imageId
      ensures RecordKey(id) != ImageKey(imageId)
    {
      KeyFamilies(id, imageId);
    }
  }

  lemma DeletePreservesValid(s: Store, header: Option<string>, secret: Option<string>, id: string)
    requires Valid(s)
    ensures Valid(Delete(s, header, secret, id).store)
  {
    KeyFamilies(id, "");
  }
}
